=== FILE: README.md ===
# Display-mode resolver of the Unity resolution dialog

This project is a Dafny model of the logic inside the two drifted copies of
`GraphicSettingsHandler`, the controller of an in-game resolution dialog. The
model covers:

- grouping the supported `(width, height, hz)` modes into distinct `"WxH"`
  resolution options, each with its list of refresh rates;
- dropping the modes that do not fit the desktop in windowed and
  borderless-fullscreen-window mode;
- finding the dropdown index of the current resolution and refresh rate;
- the MaximizedWindow remapping of the fullscreen-mode dropdown;
- deciding when the refresh-rate control is interactable;
- the refresh-rate fallback and `"WxH"` splitting when a selection is applied;
- the windowed shrink rule.

The engine (`Screen`, `Display`, dropdown widgets) does not appear. Its state
comes in as parameters. Each `Screen.SetResolution` call the handler would
make comes out as a `ResolutionRequest` value.

Modules:

- `Common`: `Option`, the subsequence relation, and the first-match scan
  `IndexOf`. The three first-match selections use it: the resolution in both
  copies and the second copy's refresh rate.
- `Strings`: the text operations on labels. These are decimal formatting,
  `int.Parse` on digit strings, `Split(char)` and `Replace(pattern, "")`.
- `DisplayModes`: the mode enum, the `"WxH"` key, the `"<hz> Hz"` label and the
  fit rule.
- `Grouping`: the shared population loop. Beside it are reference definitions:
  `Dedup` gives the first-occurrence option order and `RatesFor` gives one
  key's rate list.
- `ScriptsHandler`: the `Scripts/Controller` copy.
- `AssetsHandler`: the `Assets/NewResolutionDialog` copy.

The two copies differ in these ways, and the model keeps each difference:

- The first copy filters modes by fit. The second does not.
- When the current resolution is not listed, the first copy selects the last
  option and the second selects option 0.
- The first copy picks the closest refresh rate. The second looks for an exact
  `"<hz> Hz"` label.
- The first copy replaces a stale or `"N/A"` rate with 0. The second passes any
  parsed rate on, and it turns only `"N/A"` into 0.
- The first copy maps MaximizedWindow to Windowed. The second casts the
  dropdown index unchanged.

## Model

| member | source | states |
|---|---|---|
| Grouping.PopulateResolutionsDropdown | Scripts/Controller/GraphicSettingsHandler.cs:120-158 | The options are distinct. They are exactly the keys of the kept modes, ordered by each key's first occurrence. The dictionary has exactly the option keys. Each list holds that key's rates in input order, repeats included. |
| Grouping.DedupFirstOccurrenceOrder | Scripts/Controller/GraphicSettingsHandler.cs:145-150 | Keys are added on first sight, so for any two options the earlier one first occurs earlier in the input. |
| Grouping.Dedup | Scripts/Controller/GraphicSettingsHandler.cs:145-150 | The option list without repeats holds exactly the elements of the key sequence. |
| Grouping.RatesForMembership | Scripts/Controller/GraphicSettingsHandler.cs:152-154 | A rate text is in a key's list iff some kept mode with that key has that rate. No rate is invented and none is lost. |
| Grouping.GroupingKeepsEveryRate | Scripts/Controller/GraphicSettingsHandler.cs:131-155 | The list lengths over all options add up to the number of kept modes. Every mode contributes exactly one entry, duplicates included. |
| Grouping.RatesForHasMode | Scripts/Controller/GraphicSettingsHandler.cs:144-154 | The text of hz is in the list for "WxH" iff the mode (W, H, hz) was kept. |
| Grouping.RateOptionsRoundTrip | Assets/NewResolutionDialog/Scripts/Controller/GraphicSettingsHandler.cs:140-144 | Removing " Hz" from each built refresh-rate option gives the decimal rate list back. |
| DisplayModes.FittingModesBounds | Scripts/Controller/GraphicSettingsHandler.cs:126-141 | Windowed mode keeps exactly the modes strictly smaller than the desktop. FullScreenWindow keeps exactly the equal-or-smaller ones. Every other mode, and the unfiltered copy, keeps everything. |
| DisplayModes.FittingModes | Scripts/Controller/GraphicSettingsHandler.cs:137-141 | A mode survives iff it was listed and passes both skip guards, and the filter never adds modes. |
| DisplayModes.FittingModesInOrder | Scripts/Controller/GraphicSettingsHandler.cs:131-141 | The surviving modes are a subsequence of the input, so they keep their input order. |
| DisplayModes.FittingModesKeepRepeats | Scripts/Controller/GraphicSettingsHandler.cs:131-141 | A mode that fits survives exactly as often as it occurs in the input. A mode that does not fit never survives. |
| DisplayModes.ResolutionKey | Scripts/Controller/GraphicSettingsHandler.cs:40-43 | The "{0}x{1}" key splits on 'x' into exactly two pieces, the decimal texts of the width and of the height. |
| DisplayModes.ParseResolutionKey | Scripts/Controller/GraphicSettingsHandler.cs:40-43 | Formatting "{0}x{1}", then splitting on 'x' and parsing both pieces, returns the original width and height. |
| DisplayModes.ResolutionKeyInjective | Scripts/Controller/GraphicSettingsHandler.cs:144-150 | Two resolutions get the same key iff they have the same width and height, so grouping by key is grouping by size. |
| DisplayModes.OptionHzOfRateOption | Scripts/Controller/GraphicSettingsHandler.cs:264 | Reading an option built from hz, by stripping " Hz" and parsing, gives back hz. |
| DisplayModes.StripNotAvailable | Scripts/Controller/GraphicSettingsHandler.cs:474-476 | Stripping " Hz" leaves "N/A" unchanged, and "N/A" is not a number. |
| DisplayModes.ModeOfOrdinal | Scripts/Controller/GraphicSettingsHandler.cs:52 | The cast of a dropdown index to the enum is the inverse of the enum's integer value. |
| Strings.ParseNatToString | Scripts/Controller/GraphicSettingsHandler.cs:479-481 | int.Parse of the decimal text of a non-negative number gives the number back. |
| Strings.NatToStringInjective | Scripts/Controller/GraphicSettingsHandler.cs:475 | Two rate texts are equal iff the rates are equal, so the textual `Contains` test compares rates. |
| Strings.NatToString | Scripts/Controller/GraphicSettingsHandler.cs:42 | The text of a number is a non-empty digit string with no leading zero. |
| Strings.Split | Scripts/Controller/GraphicSettingsHandler.cs:478 | Split returns at least one piece. No piece contains the separator. Joining the pieces with the separator gives the input back. |
| Strings.SplitAfter | Scripts/Controller/GraphicSettingsHandler.cs:478-480 | When the text before a separator has no separator, that text is the first piece. |
| Strings.RemoveAll | Scripts/Controller/GraphicSettingsHandler.cs:47 | Replace never lengthens a text, and it leaves a text unchanged when no character could start the pattern. |
| Strings.RemoveAllTrailing | Scripts/Controller/GraphicSettingsHandler.cs:47 | Removing " Hz" from a digit text followed by " Hz" gives the digits back. |
| Common.IndexOf | Scripts/Controller/GraphicSettingsHandler.cs:245-252 | The scan with break finds an index iff the item occurs. The index found holds the item, and no earlier index does. |
| ScriptsHandler.PopulateResolutionsDropdown | Scripts/Controller/GraphicSettingsHandler.cs:120-158 | The options are exactly the distinct keys of the modes that fit the desktop, ordered by each key's first occurrence, and they are the dictionary's keys. Each list holds that key's fitting rates in order. Every option parses back to a size within the bound for the screen mode. |
| ScriptsHandler.GetSelectedRefreshRate | Scripts/Controller/GraphicSettingsHandler.cs:45-48 | Removing " Hz" never lengthens the label. A label made of a decimal rate and " Hz" gives back the rate's text, and "N/A" comes back unchanged. |
| ScriptsHandler.PopulateRefresRateDropdown | Scripts/Controller/GraphicSettingsHandler.cs:159-178 | A listed current resolution gets one option per rate, in list order. Each option is the rate text with " Hz" appended, and it reads back as its rate. An unlisted one gets no options. |
| ScriptsHandler.RefreshRateOptionsReadBack | Scripts/Controller/GraphicSettingsHandler.cs:170-174 | On a dictionary built by grouping, every option parses. Its rate, with the current resolution, is a kept mode. |
| ScriptsHandler.SelectCurrentResolutionDropdownItem | Scripts/Controller/GraphicSettingsHandler.cs:239-253 | The result is the first option equal to the current key, or Count-1 when there is no match. |
| ScriptsHandler.SelectCurrentRefreshRateDropdownItem | Scripts/Controller/GraphicSettingsHandler.cs:255-276 | When some distance is below int.MaxValue, the index is in range and minimises the distance to hz, and it is the first such index even with the early break. Otherwise it is Count-1, which is -1 for no options. |
| ScriptsHandler.GetSelectedFullScreenMode | Scripts/Controller/GraphicSettingsHandler.cs:50-60 | A selected MaximizedWindow becomes Windowed. Every other index is cast unchanged, and the result is never MaximizedWindow. |
| ScriptsHandler.SelectCurrentFullScreenModeDropdownItem | Scripts/Controller/GraphicSettingsHandler.cs:278-285 | A current MaximizedWindow is shown as FullScreenWindow. Every other mode is shown as its own index. |
| ScriptsHandler.FullScreenModeRoundTrip | Scripts/Controller/GraphicSettingsHandler.cs:50-60 | Showing the current mode and reading the selection back gives the same mode, except that MaximizedWindow comes back as FullScreenWindow. |
| ScriptsHandler.SetRefreshRateInteractable | Scripts/Controller/GraphicSettingsHandler.cs:338-348 | Disabling leaves exactly ["N/A"] and no interaction. Enabling keeps the options, and the control is interactable iff the current resolution has more than one rate. |
| ScriptsHandler.UpdateRefreshRateInteractability | Scripts/Controller/GraphicSettingsHandler.cs:315-336 | The control is interactable iff not in the editor, in ExclusiveFullScreen, and with more than one rate. Outside that case the options are ["N/A"]. |
| ScriptsHandler.InteractableControlOffersChoice | Scripts/Controller/GraphicSettingsHandler.cs:346-347 | An interactable control over built options offers at least two rates, and each one parses. |
| ScriptsHandler.ApplySelectedResolution | Scripts/Controller/GraphicSettingsHandler.cs:468-483 | Width and height are the split of the selected key, and the mode is the remapped selection. A non-zero rate is passed on only if the selected rate is not "N/A" and is still listed for that resolution. |
| ScriptsHandler.ApplyKeepsListedRateOrFallsBack | Scripts/Controller/GraphicSettingsHandler.cs:470-476 | Applying (W, H, hz) picked from built options requests hz iff mode (W, H, hz) was kept. Otherwise it requests 0. |
| ScriptsHandler.ApplyNotAvailable | Scripts/Controller/GraphicSettingsHandler.cs:475-476 | Applying with "N/A" selected requests 0 Hz at the selected size. |
| ScriptsHandler.ShrinkTarget | Scripts/Controller/GraphicSettingsHandler.cs:397-406 | The result is the last listed mode strictly smaller than the desktop in both dimensions, or the desktop size when there is none. |
| ScriptsHandler.OnFullScreenModeChanged | Scripts/Controller/GraphicSettingsHandler.cs:374-429 | While the dialog is being updated nothing is assigned and nothing is requested. Otherwise the selected mode is assigned first. Then a switch to Windowed with a selection at least as large as the desktop requests the shrink target, Windowed, at 0 Hz, and every other case applies the selection. When the key does not parse, the mode is assigned and no resolution is requested. |
| AssetsHandler.PopulateResolutionsDropdown | Assets/NewResolutionDialog/Scripts/Controller/GraphicSettingsHandler.cs:96-131 | Nothing is filtered. Options are exactly the distinct keys, ordered by each key's first occurrence. Every input mode's rate is in its key's list. |
| AssetsHandler.PopulateRefresRateDropdown | Assets/NewResolutionDialog/Scripts/Controller/GraphicSettingsHandler.cs:132-147 | The options are the selected resolution's rates with " Hz" appended, in the same order. |
| AssetsHandler.RefreshRateOptionsRoundTrip | Assets/NewResolutionDialog/Scripts/Controller/GraphicSettingsHandler.cs:140-144 | Stripping " Hz" from each built option gives the rate list back, and every option parses. |
| AssetsHandler.SelectCurrentResolution | Assets/NewResolutionDialog/Scripts/Controller/GraphicSettingsHandler.cs:230-244 | The result is the first option equal to the current key, or 0 when there is no match. |
| AssetsHandler.SelectCurrentRefreshRate | Assets/NewResolutionDialog/Scripts/Controller/GraphicSettingsHandler.cs:246-260 | The result is the first option whose text is exactly "<hz> Hz", or Count-1 when there is no match. |
| AssetsHandler.SelectRefreshRateMatchesRate | Assets/NewResolutionDialog/Scripts/Controller/GraphicSettingsHandler.cs:251-259 | On built options, the exact-text match is the first listed rate equal to hz. When hz is not listed it is the last index. |
| AssetsHandler.RateOptionTextInjective | Assets/NewResolutionDialog/Scripts/Controller/GraphicSettingsHandler.cs:142 | Two labels are equal iff their rate texts are equal. |
| AssetsHandler.SetRefreshRateInteractable | Assets/NewResolutionDialog/Scripts/Controller/GraphicSettingsHandler.cs:291-300 | The control is interactable exactly as requested. When it is not, its options are exactly ["N/A"]. |
| AssetsHandler.UpdateRefreshRateInteractability | Assets/NewResolutionDialog/Scripts/Controller/GraphicSettingsHandler.cs:264-289 | The control is interactable iff not in the editor, with more than one rate, and in ExclusiveFullScreen. Otherwise its options are ["N/A"]. |
| AssetsHandler.ApplyResolution | Assets/NewResolutionDialog/Scripts/Controller/GraphicSettingsHandler.cs:387-398 | Width and height are the split of the key, and the mode is the index cast without remapping. The rate is 0 for "N/A" and otherwise the label's number with " Hz" stripped. |
| AssetsHandler.ApplyResolutionRoundTrip | Assets/NewResolutionDialog/Scripts/Controller/GraphicSettingsHandler.cs:391-395 | Applying the key of (W, H) with the label of hz requests exactly (W, H, hz). With "N/A" it requests (W, H, 0). |

## Left out

- Engine surface. `Screen`, `Display`, `QualitySettings`, the dropdown and text widgets and the `MonoBehaviour` lifecycle are not modelled. Their values are parameters. The `Screen.SetResolution` calls and the `Screen.fullScreenMode` assignment of `OnFullScreenModeChanged` in the first copy are return values. No other engine write is modelled.
- `Resolution.ToString()` parsing. Its text format is engine-defined. The model takes the modes as `(width, height, hz)` triples, and a mode's rate text is its decimal rendering.
- Frame waits. The two-frame coroutine wait before re-reading the display state, and the re-population after it, are timing glue.
- Preferences. `PlayerPrefs` persistence in `Awake`, `OnRefreshRateChanged` and `OnVSyncChanged` is an external key-value store. The `int.TryParse` in `OnRefreshRateChanged` only feeds it.
- The vsync reset. The first copy's `SetResolution` also writes `QualitySettings.vSyncCount = vSync.value` after every resolution request. That value comes from the vsync dropdown, which is not modelled, so a request carries no vsync count.
- Other dropdowns and handlers. The quality, monitor and vsync dropdowns and their change handlers copy engine lists and carry no invariants.
- Debugging code. `LogRefreshRates` and the key-logging `Update` of the second copy only write logs.
- The second copy's fullscreen-mode and quality handlers (`OnFullScreenModeChanged`, `OnQualityLevelChanged`). They set engine state directly. The fullscreen handler's interim `SetRefreshRateInteractable(mode == ExclusiveFullScreen)` is overwritten by the dialog refresh that follows it, which `AssetsHandler.UpdateRefreshRateInteractability` models.
- Missing dictionary keys. Lookups that throw for a missing key appear as preconditions: the selected or current key is in the dictionary.
- Parsing limits. `int.Parse` is modelled on non-empty digit strings, and `None` stands for a parse that throws. Its acceptance of surrounding whitespace and a sign, and its 32-bit overflow, are not modelled. Widths, heights and rates are unbounded non-negative integers.
- ScriptsHandler.SelectCurrentRefreshRateDropdownItem: does not model `Mathf.Abs` overflow or 32-bit wrap-around of `hz - optionHz`, because the distances are computed on unbounded integers. The `int.MaxValue` starting bound itself is modelled.
- ScriptsHandler.GetSelectedFullScreenMode: requires the dropdown index to be one of the enum's four values, because casting another integer gives an enum value with no name.
- AssetsHandler.ApplyResolution: requires the dropdown index to be one of the enum's four values, for the same reason.

=== FILE: assets_handler.dfy ===
/** The resolver logic of the `Assets/NewResolutionDialog` copy of
    `GraphicSettingsHandler`: unfiltered grouping, exact-text refresh-rate
    matching, the opposite resolution fallback, and an apply step that reads
    the rate straight from the option label. */
module AssetsHandler {
  import opened Common
  import opened Strings
  import opened DisplayModes
  import opened Grouping

  /** `PopulateResolutionsDropdown`: the grouping loop with nothing skipped.
      Every listed mode has its key among the options and its rate in that
      key's list. */
  method PopulateResolutionsDropdown(modes: seq<DisplayMode>)
    returns (options: seq<string>, rates: map<string, seq<string>>)
    ensures options == Dedup(KeysOf(modes))
    ensures Distinct(options)
    ensures forall k :: k in rates <==> k in options
    ensures forall k :: k in options <==> exists m :: m in modes && KeyOf(m) == k
    ensures forall i, j :: 0 <= i < j < |options| ==>
      FirstPosition(KeysOf(modes), options[i]) < FirstPosition(KeysOf(modes), options[j])
    ensures forall k :: k in rates ==> rates[k] == RatesFor(modes, k)
    ensures forall m :: m in modes ==> KeyOf(m) in rates && HzText(m) in rates[KeyOf(m)]
  {
    FittingModesBounds(Unfiltered, modes);
    options, rates := Grouping.PopulateResolutionsDropdown(modes, Unfiltered);
    forall m | m in modes
      ensures KeyOf(m) in rates && HzText(m) in rates[KeyOf(m)]
    {
      RatesForMembership(modes, KeyOf(m), HzText(m));
    }
  }

  /** `PopulateRefresRateDropdown`: the selected resolution's rates, each with
      `" Hz"` appended, in list order. The dictionary lookup needs the key. */
  function PopulateRefresRateDropdown(rates: map<string, seq<string>>, selectedRes: string): (options: seq<string>)
    requires selectedRes in rates
    ensures |options| == |rates[selectedRes]|
    ensures forall i :: 0 <= i < |options| ==> options[i] == rates[selectedRes][i] + HzSuffix
  {
    RateOptions(rates[selectedRes])
  }

  /** Stripping `" Hz"` from the options built for a resolution of the
      grouping loop gives back exactly its rate list, and each option reads
      back as the rate of a listed mode. */
  lemma RefreshRateOptionsRoundTrip(modes: seq<DisplayMode>, rates: map<string, seq<string>>, selectedRes: string)
    requires forall k :: k in rates ==> rates[k] == RatesFor(modes, k)
    requires selectedRes in rates
    ensures forall i :: 0 <= i < |rates[selectedRes]| ==>
      RemoveAll(PopulateRefresRateDropdown(rates, selectedRes)[i], HzSuffix) == rates[selectedRes][i]
    ensures forall i :: 0 <= i < |rates[selectedRes]| ==>
      OptionHz(PopulateRefresRateDropdown(rates, selectedRes)[i]).Some?
  {
    RatesForDecimal(modes, selectedRes);
    RateOptionsRoundTrip(rates[selectedRes]);
  }

  /** `SelectCurrentResolution`: the first option equal to the current
      resolution's key, or index 0 ("lowest") when none is. */
  function SelectCurrentResolution(options: seq<string>, currentKey: string): (index: int)
    ensures currentKey in options ==>
      0 <= index < |options| && options[index] == currentKey && forall j :: 0 <= j < index ==> options[j] != currentKey
    ensures currentKey !in options ==> index == 0
  {
    match IndexOf(options, currentKey)
    case Some(i) => i
    case None => 0
  }

  /** `SelectCurrentRefreshRate`: the first option whose label is exactly
      `"<hz> Hz"`, or the last one (`Count - 1`) when none is. */
  function SelectCurrentRefreshRate(options: seq<string>, hz: nat): (index: int)
    ensures RateOptionText(NatToString(hz)) in options ==>
      && 0 <= index < |options|
      && options[index] == RateOptionText(NatToString(hz))
      && forall j :: 0 <= j < index ==> options[j] != RateOptionText(NatToString(hz))
    ensures RateOptionText(NatToString(hz)) !in options ==> index == |options| - 1
  {
    match IndexOf(options, RateOptionText(NatToString(hz)))
    case Some(i) => i
    case None => |options| - 1
  }

  /** Appending the suffix is injective, so a label match is a rate match. */
  lemma RateOptionTextInjective(a: string, b: string)
    ensures RateOptionText(a) == RateOptionText(b) <==> a == b
  {
    if RateOptionText(a) == RateOptionText(b) {
      assert |a| == |b|;
      assert a == RateOptionText(a)[..|a|];
    }
  }

  /** On the options built from a rate list, the exact-text selection is the
      first rate equal to `hz`'s text, or the last rate when `hz` is not listed. */
  lemma SelectRefreshRateMatchesRate(rates: seq<string>, hz: nat)
    ensures NatToString(hz) in rates ==>
      && 0 <= SelectCurrentRefreshRate(RateOptions(rates), hz) < |rates|
      && rates[SelectCurrentRefreshRate(RateOptions(rates), hz)] == NatToString(hz)
      && forall j :: 0 <= j < SelectCurrentRefreshRate(RateOptions(rates), hz) ==> rates[j] != NatToString(hz)
    ensures NatToString(hz) !in rates ==> SelectCurrentRefreshRate(RateOptions(rates), hz) == |rates| - 1
  {
    var options := RateOptions(rates);
    var target := NatToString(hz);
    forall i | 0 <= i < |rates|
      ensures options[i] == RateOptionText(target) <==> rates[i] == target
    {
      RateOptionTextInjective(rates[i], target);
    }
    if target in rates {
      var k :| 0 <= k < |rates| && rates[k] == target;
      assert options[k] == RateOptionText(target);
    }
  }

  /** `SetRefreshRateInteractable`: a disabled control shows only "N/A". */
  function SetRefreshRateInteractable(interactable: bool, options: seq<string>): (control: RefreshRateControl)
    ensures control.interactable == interactable
    ensures !interactable ==> control.options == [NotAvailable]
    ensures interactable ==> control.options == options
  {
    RefreshRateControl(if interactable then options else [NotAvailable], interactable)
  }

  /** The refresh-rate part of `UpdateDialogInteractability`: outside the
      editor the current resolution's list is looked up, and the control is
      enabled iff that list has more than one rate and the screen is in
      exclusive fullscreen; in the editor it is disabled. */
  function UpdateRefreshRateInteractability(isEditor: bool, screenMode: FullScreenMode, rates: map<string, seq<string>>, currentKey: string, options: seq<string>): (control: RefreshRateControl)
    requires !isEditor ==> currentKey in rates
    ensures control.interactable <==> !isEditor && |rates[currentKey]| > 1 && screenMode == ExclusiveFullScreen
    ensures !control.interactable ==> control.options == [NotAvailable]
    ensures control.interactable ==> control.options == options
  {
    if isEditor then SetRefreshRateInteractable(false, options)
    else SetRefreshRateInteractable(|rates[currentKey]| > 1 && screenMode == ExclusiveFullScreen, options)
  }

  /** `ApplyResolution`: width and height split from the selected key; the
      rate is 0 for "N/A" and otherwise the label with `" Hz"` removed,
      parsed. The mode is the dropdown index cast as is, with no remapping.
      `None` where the handler would throw while parsing. */
  function ApplyResolution(selectedRes: string, selectedRateText: string, fsValue: nat): (request: Option<ResolutionRequest>)
    requires fsValue < 4
    ensures request.Some? ==> ParseResolution(selectedRes) == Some(Size(request.value.width, request.value.height))
    ensures request.Some? ==> Ordinal(request.value.mode) == fsValue
    ensures selectedRateText == NotAvailable ==>
      (request.Some? <==> ParseResolution(selectedRes).Some?) && (request.Some? ==> request.value.refreshRate == 0)
    ensures selectedRateText != NotAvailable ==>
      (request.Some? <==> ParseResolution(selectedRes).Some? && OptionHz(selectedRateText).Some?)
      && (request.Some? ==> OptionHz(selectedRateText) == Some(request.value.refreshRate))
  {
    var hz := if selectedRateText == NotAvailable then Some(0) else OptionHz(selectedRateText);
    match (ParseResolution(selectedRes), hz)
    case (Some(size), Some(rate)) => Some(ResolutionRequest(size.width, size.height, ModeOfOrdinal(fsValue), rate))
    case _ => None
  }

  /** Applying a resolution option and a refresh-rate option built from
      (width, height, hz) requests exactly that mode; with "N/A" it requests
      0 Hz. */
  lemma ApplyResolutionRoundTrip(width: nat, height: nat, hz: nat, fsValue: nat)
    requires fsValue < 4
    ensures ApplyResolution(ResolutionKey(width, height), RateOptionText(NatToString(hz)), fsValue) ==
      Some(ResolutionRequest(width, height, ModeOfOrdinal(fsValue), hz))
    ensures ApplyResolution(ResolutionKey(width, height), NotAvailable, fsValue) ==
      Some(ResolutionRequest(width, height, ModeOfOrdinal(fsValue), 0))
  {
    ParseResolutionKey(width, height);
    OptionHzOfRateOption(hz);
    var text := RateOptionText(NatToString(hz));
    assert text != NotAvailable by {
      assert IsDigit(text[0]);
      assert !IsDigit(NotAvailable[0]);
    }
  }
}

=== FILE: common.dfy ===
/** Small datatypes and sequence utilities shared by the rest of the model. */
module Common {

  /** A value that may be missing; `None` stands for the cases where the
      handler would throw (a failed `int.Parse`, an index out of range). */
  datatype Option<+T> = None | Some(value: T)

  /** True iff no element of `s` occurs twice. */
  predicate Distinct<T(==)>(s: seq<T>) {
    forall i, j :: 0 <= i < j < |s| ==> s[i] != s[j]
  }

  /** Position of the first occurrence of `x` in `s`: the dropdown scans
      `for (i = 0; i < Count; i++) if (options[i] == x) { ...; break; }`. */
  function IndexOf<T(==)>(s: seq<T>, x: T): (r: Option<nat>)
    ensures r.None? <==> x !in s
    ensures r.Some? ==> r.value < |s| && s[r.value] == x && forall j :: 0 <= j < r.value ==> s[j] != x
    decreases |s|
  {
    if |s| == 0 then None
    else if s[0] == x then Some(0)
    else match IndexOf(s[1..], x)
      case None => None
      case Some(i) => Some(i + 1)
  }

  /** True iff `sub` can be obtained from `s` by deleting elements, keeping
      the order and the repeats of those that remain. */
  predicate IsSubsequence<T(==)>(sub: seq<T>, s: seq<T>)
    decreases |s|
  {
    if |sub| == 0 then true
    else if |s| == 0 then false
    else if sub[|sub| - 1] == s[|s| - 1] then IsSubsequence(sub[..|sub| - 1], s[..|s| - 1])
    else IsSubsequence(sub, s[..|s| - 1])
  }

  /** The first position of an element known to occur. */
  function FirstPosition<T(==)>(s: seq<T>, x: T): (k: nat)
    requires x in s
    ensures k < |s| && s[k] == x && forall j :: 0 <= j < k ==> s[j] != x
  {
    IndexOf(s, x).value
  }

  /** The first position of `x` does not move when elements are appended
      after it. */
  lemma FirstPositionInPrefix<T>(s: seq<T>, n: nat, x: T)
    requires n <= |s|
    requires x in s[..n]
    ensures FirstPosition(s, x) == FirstPosition(s[..n], x)
  {
  }
}

=== FILE: display_modes.dfy ===
/** The data both handler copies work on: supported display modes as the
    host lists them, the engine's fullscreen-mode enum, the `"WxH"` resolution
    key and the `"<hz> Hz"` refresh-rate label, and the rule that drops modes
    too large for the desktop. */
module DisplayModes {
  import opened Common
  import opened Strings

  /** The engine's fullscreen-mode enum, in declaration order. */
  datatype FullScreenMode = ExclusiveFullScreen | FullScreenWindow | MaximizedWindow | Windowed

  /** The enum's integer value: the value the handler writes to, and casts
      back from, the mode dropdown. */
  function Ordinal(mode: FullScreenMode): nat {
    match mode
    case ExclusiveFullScreen => 0
    case FullScreenWindow => 1
    case MaximizedWindow => 2
    case Windowed => 3
  }

  /** The cast `(FullScreenMode)value` of a dropdown index to the enum. */
  function ModeOfOrdinal(value: nat): (mode: FullScreenMode)
    requires value < 4
    ensures Ordinal(mode) == value
  {
    if value == 0 then ExclusiveFullScreen
    else if value == 1 then FullScreenWindow
    else if value == 2 then MaximizedWindow
    else Windowed
  }

  /** One supported mode as the host lists it: width, height and refresh rate. */
  datatype DisplayMode = DisplayMode(width: nat, height: nat, refreshRate: nat)

  datatype Size = Size(width: nat, height: nat)

  /** The arguments of one `SetResolution(width, height, mode, hz)` call;
      a refresh rate of 0 lets the host choose. */
  datatype ResolutionRequest = ResolutionRequest(width: nat, height: nat, mode: FullScreenMode, refreshRate: nat)

  /** The refresh-rate dropdown after an interactability update: its option
      labels and whether the player may open it. */
  datatype RefreshRateControl = RefreshRateControl(options: seq<string>, interactable: bool)

  const HzSuffix: string := " Hz"
  const NotAvailable: string := "N/A"

  /** `GetResolutionString(w, h)`: the `"{0}x{1}"` key of a resolution.
      Decimal text has no `'x'`, so the key splits on `'x'` into exactly the
      two numbers' texts. */
  function ResolutionKey(width: nat, height: nat): (key: string)
    ensures Split(key, 'x') == [NatToString(width), NatToString(height)]
  {
    var a := NatToString(width);
    var b := NatToString(height);
    assert 'x' !in a && 'x' !in b by {
      assert !IsDigit('x');
    }
    SplitAfter(a, 'x', b);
    SplitNoSeparator(b, 'x');
    assert a + "x" + b == a + ['x'] + b;
    a + "x" + b
  }

  function KeyOf(m: DisplayMode): string {
    ResolutionKey(m.width, m.height)
  }

  /** The refresh rate of a mode as the text kept in the resolution's list. */
  function HzText(m: DisplayMode): string {
    NatToString(m.refreshRate)
  }

  /** `key.Split('x')` followed by `int.Parse` of the first two pieces;
      `None` where the handler would throw. */
  function ParseResolution(key: string): Option<Size> {
    var parts := Split(key, 'x');
    if |parts| < 2 then None
    else match (ParseNat(parts[0]), ParseNat(parts[1]))
      case (Some(w), Some(h)) => Some(Size(w, h))
      case _ => None
  }

  /** Splitting a formatted key on `'x'` gives back its width and height. */
  lemma ParseResolutionKey(width: nat, height: nat)
    ensures ParseResolution(ResolutionKey(width, height)) == Some(Size(width, height))
  {
    ParseNatToString(width);
    ParseNatToString(height);
  }

  /** Distinct resolutions get distinct keys, so grouping by key is grouping
      by (width, height). */
  lemma ResolutionKeyInjective(w1: nat, h1: nat, w2: nat, h2: nat)
    ensures ResolutionKey(w1, h1) == ResolutionKey(w2, h2) <==> w1 == w2 && h1 == h2
  {
    ParseResolutionKey(w1, h1);
    ParseResolutionKey(w2, h2);
  }

  /** `hz + hzSuffix`: the label of one refresh-rate option. */
  function RateOptionText(hz: string): string {
    hz + HzSuffix
  }

  /** The hz read back from an option label by stripping the suffix and parsing. */
  function OptionHz(text: string): Option<nat> {
    ParseNat(RemoveAll(text, HzSuffix))
  }

  /** Stripping the suffix from a label built from decimal text gives the text back. */
  lemma StripRateOption(hz: string)
    requires IsDecimal(hz)
    ensures RemoveAll(RateOptionText(hz), HzSuffix) == hz
  {
    assert HzSuffix[0] == ' ';
    RemoveAllTrailing(hz, HzSuffix);
  }

  /** Reading back the label of a mode's refresh rate gives that rate. */
  lemma OptionHzOfRateOption(n: nat)
    ensures OptionHz(RateOptionText(NatToString(n))) == Some(n)
  {
    StripRateOption(NatToString(n));
    ParseNatToString(n);
  }

  /** `"N/A"` survives suffix stripping unchanged and is not a decimal. */
  lemma StripNotAvailable()
    ensures RemoveAll(NotAvailable, HzSuffix) == NotAvailable
    ensures !IsDecimal(NotAvailable)
  {
    assert HzSuffix[0] == ' ';
    assert NotAvailable == ['N', '/', 'A'];
    assert !IsDigit(NotAvailable[0]);
  }

  /** Which modes the resolution list keeps: everything, or only what fits
      the desktop in the current screen mode. */
  datatype FitRule = Unfiltered | FitDesktop(screenMode: FullScreenMode, systemWidth: nat, systemHeight: nat)

  /** The negation of the two `continue` guards of the population loop. */
  predicate Fits(rule: FitRule, m: DisplayMode) {
    match rule
    case Unfiltered => true
    case FitDesktop(mode, sw, sh) =>
      && !(mode == Windowed && (m.width >= sw || m.height >= sh))
      && !(mode == FullScreenWindow && (m.width > sw || m.height > sh))
  }

  /** The modes that survive the fit guards, in input order. */
  function FittingModes(rule: FitRule, modes: seq<DisplayMode>): (kept: seq<DisplayMode>)
    ensures |kept| <= |modes|
    ensures forall m :: m in kept <==> m in modes && Fits(rule, m)
    decreases |modes|
  {
    if |modes| == 0 then []
    else
      var last := modes[|modes| - 1];
      var prefix := FittingModes(rule, modes[..|modes| - 1]);
      assert modes == modes[..|modes| - 1] + [last];
      if Fits(rule, last) then prefix + [last] else prefix
  }

  /** The filter keeps the surviving modes in input order: the result is a
      subsequence of the input. */
  lemma {:induction false} FittingModesInOrder(rule: FitRule, modes: seq<DisplayMode>)
    ensures IsSubsequence(FittingModes(rule, modes), modes)
    decreases |modes|
  {
    if |modes| > 0 {
      var n := |modes| - 1;
      var last := modes[n];
      var prefix := FittingModes(rule, modes[..n]);
      FittingModesInOrder(rule, modes[..n]);
      assert modes == modes[..n] + [last];
      if Fits(rule, last) {
        var kept := prefix + [last];
        assert kept[..|kept| - 1] == prefix;
      } else if |prefix| > 0 {
        assert prefix[|prefix| - 1] in prefix;
      }
    }
  }

  /** The filter keeps repeats: each mode that fits occurs in the result
      exactly as often as in the input, and no other mode occurs. */
  lemma {:induction false} FittingModesKeepRepeats(rule: FitRule, modes: seq<DisplayMode>)
    ensures forall m :: multiset(FittingModes(rule, modes))[m] == if Fits(rule, m) then multiset(modes)[m] else 0
    decreases |modes|
  {
    if |modes| > 0 {
      var n := |modes| - 1;
      var last := modes[n];
      var prefix := FittingModes(rule, modes[..n]);
      FittingModesKeepRepeats(rule, modes[..n]);
      assert modes == modes[..n] + [last];
      assert multiset(modes) == multiset(modes[..n]) + multiset{last};
      if Fits(rule, last) {
        assert multiset(prefix + [last]) == multiset(prefix) + multiset{last};
      }
    }
  }

  /** The fit rule in the desktop's terms: windowed keeps strictly smaller
      modes, fullscreen-window keeps equal or smaller ones, every other mode
      (and the unfiltered copy) keeps everything. */
  lemma {:induction false} FittingModesBounds(rule: FitRule, modes: seq<DisplayMode>)
    ensures rule.FitDesktop? && rule.screenMode == Windowed ==>
      forall m :: m in FittingModes(rule, modes) <==>
        m in modes && m.width < rule.systemWidth && m.height < rule.systemHeight
    ensures rule.FitDesktop? && rule.screenMode == FullScreenWindow ==>
      forall m :: m in FittingModes(rule, modes) <==>
        m in modes && m.width <= rule.systemWidth && m.height <= rule.systemHeight
    ensures rule.Unfiltered? || rule.screenMode in {ExclusiveFullScreen, MaximizedWindow} ==>
      FittingModes(rule, modes) == modes
    decreases |modes|
  {
    if |modes| > 0 {
      FittingModesBounds(rule, modes[..|modes| - 1]);
      assert modes == modes[..|modes| - 1] + [modes[|modes| - 1]];
    }
  }
}

=== FILE: grouping.dfy ===
/** The population loop both handler copies share: the supported modes are
    walked in order, each kept mode's `"WxH"` key becomes a resolution option
    the first time it is seen, and its refresh rate is appended to that key's
    list in the refresh-rate dictionary. */
module Grouping {
  import opened Common
  import opened Strings
  import opened DisplayModes

  /** The resolution key of every mode, position by position. */
  function KeysOf(modes: seq<DisplayMode>): (keys: seq<string>)
    ensures |keys| == |modes|
    ensures forall i :: 0 <= i < |modes| ==> keys[i] == KeyOf(modes[i])
  {
    seq(|modes|, i requires 0 <= i < |modes| => KeyOf(modes[i]))
  }

  /** Every key occurs because some mode has it, and every mode's key occurs. */
  lemma KeysOfMembership(modes: seq<DisplayMode>, key: string)
    ensures key in KeysOf(modes) <==> exists m :: m in modes && KeyOf(m) == key
  {
    if key in KeysOf(modes) {
      var i :| 0 <= i < |modes| && KeysOf(modes)[i] == key;
      assert modes[i] in modes;
    }
    if exists m :: m in modes && KeyOf(m) == key {
      var m :| m in modes && KeyOf(m) == key;
      var i :| 0 <= i < |modes| && modes[i] == m;
      assert KeysOf(modes)[i] == key;
    }
  }

  /** Reference definition of the option list: each element kept at its first
      occurrence, later repeats dropped. */
  function Dedup(s: seq<string>): (d: seq<string>)
    ensures Distinct(d)
    ensures forall x :: x in d <==> x in s
    decreases |s|
  {
    if |s| == 0 then []
    else
      var prefix := Dedup(s[..|s| - 1]);
      var last := s[|s| - 1];
      assert s == s[..|s| - 1] + [last];
      if last in prefix then prefix else prefix + [last]
  }

  /** The deduplicated list orders its elements by where each first occurs. */
  lemma {:induction false} DedupFirstOccurrenceOrder(s: seq<string>)
    ensures forall i, j :: 0 <= i < j < |Dedup(s)| ==>
      FirstPosition(s, Dedup(s)[i]) < FirstPosition(s, Dedup(s)[j])
    decreases |s|
  {
    if |s| > 0 {
      var n := |s| - 1;
      var p := s[..n];
      var d := Dedup(s);
      var dp := Dedup(p);
      DedupFirstOccurrenceOrder(p);
      forall x | x in dp
        ensures FirstPosition(s, x) == FirstPosition(p, x) < n
      {
        FirstPositionInPrefix(s, n, x);
      }
      if s[n] !in dp {
        assert s[n] !in p;
        assert s[..n] == p;
        assert FirstPosition(s, s[n]) == n;
      }
      forall i, j | 0 <= i < j < |d|
        ensures FirstPosition(s, d[i]) < FirstPosition(s, d[j])
      {
        assert d[i] == dp[i];
        if j < |dp| {
          assert d[j] == dp[j];
        }
      }
    }
  }

  /** Reference definition of one resolution's refresh-rate list: the rates
      of the modes with that key, in input order, repeats kept. */
  function RatesFor(modes: seq<DisplayMode>, key: string): seq<string>
    decreases |modes|
  {
    if |modes| == 0 then []
    else
      var last := modes[|modes| - 1];
      RatesFor(modes[..|modes| - 1], key) + (if KeyOf(last) == key then [HzText(last)] else [])
  }

  lemma RatesForSnoc(modes: seq<DisplayMode>, m: DisplayMode, key: string)
    ensures RatesFor(modes + [m], key) == RatesFor(modes, key) + (if KeyOf(m) == key then [HzText(m)] else [])
  {
    assert (modes + [m])[..|modes|] == modes;
  }

  /** A listed rate comes from a mode with that key, and every mode's rate is listed. */
  lemma {:induction false} RatesForMembership(modes: seq<DisplayMode>, key: string, t: string)
    ensures t in RatesFor(modes, key) <==> exists m :: m in modes && KeyOf(m) == key && HzText(m) == t
    decreases |modes|
  {
    if |modes| > 0 {
      var n := |modes| - 1;
      RatesForMembership(modes[..n], key, t);
      assert modes == modes[..n] + [modes[n]];
      if exists m :: m in modes && KeyOf(m) == key && HzText(m) == t {
        var m :| m in modes && KeyOf(m) == key && HzText(m) == t;
        if m != modes[n] {
          assert m in modes[..n];
        }
      }
    }
  }

  /** In (width, height, hz) terms: a resolution's list holds the text of `hz`
      exactly when the mode (width, height, hz) was listed. */
  lemma RatesForHasMode(modes: seq<DisplayMode>, width: nat, height: nat, hz: nat)
    ensures NatToString(hz) in RatesFor(modes, ResolutionKey(width, height)) <==> DisplayMode(width, height, hz) in modes
  {
    RatesForMembership(modes, ResolutionKey(width, height), NatToString(hz));
    if NatToString(hz) in RatesFor(modes, ResolutionKey(width, height)) {
      var m :| m in modes && KeyOf(m) == ResolutionKey(width, height) && HzText(m) == NatToString(hz);
      ResolutionKeyInjective(m.width, m.height, width, height);
      NatToStringInjective(m.refreshRate, hz);
    } else {
      assert HzText(DisplayMode(width, height, hz)) == NatToString(hz);
    }
  }

  /** Every listed rate is decimal text, so it parses back. */
  lemma {:induction false} RatesForDecimal(modes: seq<DisplayMode>, key: string)
    ensures forall i :: 0 <= i < |RatesFor(modes, key)| ==> IsDecimal(RatesFor(modes, key)[i])
  {
    forall i | 0 <= i < |RatesFor(modes, key)|
      ensures IsDecimal(RatesFor(modes, key)[i])
    {
      var t := RatesFor(modes, key)[i];
      RatesForMembership(modes, key, t);
    }
  }

  /** A key no mode has gets an empty list. */
  lemma {:induction false} RatesForAbsent(modes: seq<DisplayMode>, key: string)
    requires key !in KeysOf(modes)
    ensures RatesFor(modes, key) == []
    decreases |modes|
  {
    if |modes| > 0 {
      var n := |modes| - 1;
      assert KeysOf(modes[..n]) == KeysOf(modes)[..n];
      RatesForAbsent(modes[..n], key);
      assert KeysOf(modes)[n] == KeyOf(modes[n]);
    }
  }

  /** The number of rates listed under all of `keys`. */
  function TotalRates(keys: seq<string>, modes: seq<DisplayMode>): nat
    decreases |keys|
  {
    if |keys| == 0 then 0
    else TotalRates(keys[..|keys| - 1], modes) + |RatesFor(modes, keys[|keys| - 1])|
  }

  /** Appending a mode adds one rate to the total if its key is among `keys`,
      none otherwise. */
  lemma {:induction false} TotalRatesSnoc(keys: seq<string>, modes: seq<DisplayMode>, m: DisplayMode)
    requires Distinct(keys)
    ensures TotalRates(keys, modes + [m]) == TotalRates(keys, modes) + (if KeyOf(m) in keys then 1 else 0)
    decreases |keys|
  {
    if |keys| > 0 {
      var n := |keys| - 1;
      var prefix := keys[..n];
      TotalRatesSnoc(prefix, modes, m);
      RatesForSnoc(modes, m, keys[n]);
      assert keys == prefix + [keys[n]];
      if KeyOf(m) == keys[n] {
        assert KeyOf(m) !in prefix;
      }
    }
  }

  /** Grouping loses and invents nothing: the lists under the option keys hold
      exactly as many rates as there were modes. */
  lemma {:induction false} GroupingKeepsEveryRate(modes: seq<DisplayMode>)
    ensures TotalRates(Dedup(KeysOf(modes)), modes) == |modes|
    decreases |modes|
  {
    if |modes| > 0 {
      var n := |modes| - 1;
      var p := modes[..n];
      var m := modes[n];
      GroupingKeepsEveryRate(p);
      assert modes == p + [m];
      KeysOfSnoc(p, m);
      DedupSnoc(KeysOf(p), KeyOf(m));
      var dp := Dedup(KeysOf(p));
      TotalRatesSnoc(dp, p, m);
      if KeyOf(m) !in dp {
        var d := dp + [KeyOf(m)];
        assert d[..|dp|] == dp;
        RatesForAbsent(p, KeyOf(m));
        RatesForSnoc(p, m, KeyOf(m));
      }
    }
  }

  /** The population loop's state after it has handled the modes `kept`:
      the options are the distinct keys in first-occurrence order, the
      dictionary has exactly those keys, and each list holds its key's rates. */
  ghost predicate Grouped(kept: seq<DisplayMode>, options: seq<string>, rates: map<string, seq<string>>) {
    && options == Dedup(KeysOf(kept))
    && (forall k :: k in rates <==> k in options)
    && (forall k :: k in rates ==> rates[k] == RatesFor(kept, k))
  }

  lemma DedupSnoc(s: seq<string>, x: string)
    ensures Dedup(s + [x]) == if x in Dedup(s) then Dedup(s) else Dedup(s) + [x]
  {
    assert (s + [x])[..|s|] == s;
  }

  lemma KeysOfSnoc(kept: seq<DisplayMode>, m: DisplayMode)
    ensures KeysOf(kept + [m]) == KeysOf(kept) + [KeyOf(m)]
  {
  }

  /** One iteration of the population loop for a kept mode whose key is
      already listed preserves `Grouped`. */
  lemma GroupedStepKnownKey(kept: seq<DisplayMode>, options: seq<string>, rates: map<string, seq<string>>, m: DisplayMode)
    requires Grouped(kept, options, rates)
    requires KeyOf(m) in rates
    ensures Grouped(kept + [m], options, rates[KeyOf(m) := rates[KeyOf(m)] + [HzText(m)]])
  {
    KeysOfSnoc(kept, m);
    DedupSnoc(KeysOf(kept), KeyOf(m));
    var rates' := rates[KeyOf(m) := rates[KeyOf(m)] + [HzText(m)]];
    forall k | k in rates'
      ensures rates'[k] == RatesFor(kept + [m], k)
    {
      RatesForSnoc(kept, m, k);
    }
  }

  /** One iteration of the population loop for a kept mode with a new key
      preserves `Grouped`. */
  lemma GroupedStepNewKey(kept: seq<DisplayMode>, options: seq<string>, rates: map<string, seq<string>>, m: DisplayMode)
    requires Grouped(kept, options, rates)
    requires KeyOf(m) !in rates
    ensures Grouped(kept + [m], options + [KeyOf(m)], rates[KeyOf(m) := [HzText(m)]])
  {
    KeysOfSnoc(kept, m);
    DedupSnoc(KeysOf(kept), KeyOf(m));
    RatesForAbsent(kept, KeyOf(m));
    var rates' := rates[KeyOf(m) := [HzText(m)]];
    forall k | k in rates'
      ensures rates'[k] == RatesFor(kept + [m], k)
    {
      RatesForSnoc(kept, m, k);
    }
  }

  lemma FittingModesSnoc(rule: FitRule, modes: seq<DisplayMode>, i: nat)
    requires i < |modes|
    ensures Fits(rule, modes[i]) ==> FittingModes(rule, modes[..i + 1]) == FittingModes(rule, modes[..i]) + [modes[i]]
    ensures !Fits(rule, modes[i]) ==> FittingModes(rule, modes[..i + 1]) == FittingModes(rule, modes[..i])
  {
    assert modes[..i + 1][..i] == modes[..i];
  }

  /** `PopulateResolutionsDropdown`: walks the supported modes in order,
      skips those the fit rule rejects, adds a key's option the first time the
      key is seen, and appends every kept mode's rate to its key's list. */
  method PopulateResolutionsDropdown(modes: seq<DisplayMode>, rule: FitRule)
    returns (options: seq<string>, rates: map<string, seq<string>>)
    ensures options == Dedup(KeysOf(FittingModes(rule, modes)))
    ensures Distinct(options)
    ensures forall k :: k in rates <==> k in options
    ensures forall k :: k in options <==> exists m :: m in modes && Fits(rule, m) && KeyOf(m) == k
    ensures forall i, j :: 0 <= i < j < |options| ==>
      FirstPosition(KeysOf(FittingModes(rule, modes)), options[i]) < FirstPosition(KeysOf(FittingModes(rule, modes)), options[j])
    ensures forall k :: k in rates ==> rates[k] == RatesFor(FittingModes(rule, modes), k)
  {
    options := [];
    rates := map[];
    var i := 0;
    while i < |modes|
      invariant i <= |modes|
      invariant Grouped(FittingModes(rule, modes[..i]), options, rates)
    {
      var m := modes[i];
      var kept := FittingModes(rule, modes[..i]);
      FittingModesSnoc(rule, modes, i);
      if !Fits(rule, m) {
        i := i + 1;
        continue;
      }
      var key := ResolutionKey(m.width, m.height);
      if key !in rates {
        GroupedStepNewKey(kept, options, rates, m);
        options := options + [key];
        rates := rates[key := [NatToString(m.refreshRate)]];
      } else {
        GroupedStepKnownKey(kept, options, rates, m);
        rates := rates[key := rates[key] + [NatToString(m.refreshRate)]];
      }
      i := i + 1;
    }
    assert modes[..|modes|] == modes;
    var kept := FittingModes(rule, modes);
    DedupFirstOccurrenceOrder(KeysOf(kept));
    forall k
      ensures k in options <==> exists m :: m in modes && Fits(rule, m) && KeyOf(m) == k
    {
      KeysOfMembership(kept, k);
    }
  }

  /** The refresh-rate options for one resolution: each listed rate with the
      `" Hz"` suffix, in list order. */
  function RateOptions(rates: seq<string>): (options: seq<string>)
    ensures |options| == |rates|
    ensures forall i :: 0 <= i < |rates| ==> options[i] == RateOptionText(rates[i])
  {
    seq(|rates|, i requires 0 <= i < |rates| => RateOptionText(rates[i]))
  }

  /** Stripping the suffix from every option gives the rate list back. */
  lemma RateOptionsRoundTrip(rates: seq<string>)
    ensures (forall i :: 0 <= i < |rates| ==> IsDecimal(rates[i])) ==>
      forall i :: 0 <= i < |rates| ==> RemoveAll(RateOptions(rates)[i], HzSuffix) == rates[i]
  {
    if forall i :: 0 <= i < |rates| ==> IsDecimal(rates[i]) {
      forall i | 0 <= i < |rates|
        ensures RemoveAll(RateOptions(rates)[i], HzSuffix) == rates[i]
      {
        StripRateOption(rates[i]);
      }
    }
  }
}

=== FILE: scripts_handler.dfy ===
/** The resolver logic of the `Scripts/Controller` copy of
    `GraphicSettingsHandler`: fit-filtered grouping, closest refresh rate,
    the MaximizedWindow remapping, the refresh-rate fallback on apply and the
    windowed shrink rule. Host state (`Screen`, `Display`) arrives as
    parameters; each `Screen.SetResolution` call, and the fullscreen-mode
    assignment of the mode handler, becomes a returned value. */
module ScriptsHandler {
  import opened Common
  import opened Strings
  import opened DisplayModes
  import opened Grouping

  /** This copy's fit rule: the modes must fit the desktop in the current
      screen mode. */
  function DesktopRule(screenMode: FullScreenMode, systemWidth: nat, systemHeight: nat): FitRule {
    FitDesktop(screenMode, systemWidth, systemHeight)
  }

  /** `PopulateResolutionsDropdown`: the grouping loop with the modes that do
      not fit the desktop skipped. Every option is a well-formed key whose size
      satisfies the screen mode's bound. */
  method PopulateResolutionsDropdown(modes: seq<DisplayMode>, screenMode: FullScreenMode, systemWidth: nat, systemHeight: nat)
    returns (options: seq<string>, rates: map<string, seq<string>>)
    ensures options == Dedup(KeysOf(FittingModes(DesktopRule(screenMode, systemWidth, systemHeight), modes)))
    ensures Distinct(options)
    ensures forall k :: k in rates <==> k in options
    ensures forall k :: k in options <==>
      exists m :: m in modes && Fits(DesktopRule(screenMode, systemWidth, systemHeight), m) && KeyOf(m) == k
    ensures forall i, j :: 0 <= i < j < |options| ==>
      FirstPosition(KeysOf(FittingModes(DesktopRule(screenMode, systemWidth, systemHeight), modes)), options[i]) <
      FirstPosition(KeysOf(FittingModes(DesktopRule(screenMode, systemWidth, systemHeight), modes)), options[j])
    ensures forall k :: k in rates ==> rates[k] == RatesFor(FittingModes(DesktopRule(screenMode, systemWidth, systemHeight), modes), k)
    ensures forall k :: k in options ==> ParseResolution(k).Some?
    ensures screenMode == Windowed ==> forall k :: k in options ==>
      ParseResolution(k).value.width < systemWidth && ParseResolution(k).value.height < systemHeight
    ensures screenMode == FullScreenWindow ==> forall k :: k in options ==>
      ParseResolution(k).value.width <= systemWidth && ParseResolution(k).value.height <= systemHeight
  {
    var rule := DesktopRule(screenMode, systemWidth, systemHeight);
    options, rates := Grouping.PopulateResolutionsDropdown(modes, rule);
    forall k | k in options
      ensures ParseResolution(k).Some?
      ensures screenMode == Windowed ==>
        ParseResolution(k).value.width < systemWidth && ParseResolution(k).value.height < systemHeight
      ensures screenMode == FullScreenWindow ==>
        ParseResolution(k).value.width <= systemWidth && ParseResolution(k).value.height <= systemHeight
    {
      var m :| m in modes && Fits(rule, m) && KeyOf(m) == k;
      ParseResolutionKey(m.width, m.height);
    }
  }

  /** `PopulateRefresRateDropdown`: the options for the current resolution,
      or none when the current resolution is not listed. */
  function PopulateRefresRateDropdown(rates: map<string, seq<string>>, currentKey: string): (options: seq<string>)
    ensures currentKey !in rates ==> options == []
    ensures currentKey in rates ==> |options| == |rates[currentKey]|
    ensures currentKey in rates ==> forall i :: 0 <= i < |options| ==> options[i] == rates[currentKey][i] + HzSuffix
    ensures currentKey in rates && (forall i :: 0 <= i < |rates[currentKey]| ==> IsDecimal(rates[currentKey][i])) ==>
      forall i :: 0 <= i < |options| ==> OptionHz(options[i]) == ParseNat(rates[currentKey][i])
  {
    if currentKey in rates then
      RateOptionsRoundTrip(rates[currentKey]);
      RateOptions(rates[currentKey])
    else []
  }

  /** For a dictionary built by the grouping loop, every refresh-rate option
      reads back as the hz of a listed mode with the current resolution. */
  lemma RefreshRateOptionsReadBack(modes: seq<DisplayMode>, rule: FitRule, rates: map<string, seq<string>>, currentKey: string)
    requires forall k :: k in rates ==> rates[k] == RatesFor(FittingModes(rule, modes), k)
    ensures forall i :: 0 <= i < |PopulateRefresRateDropdown(rates, currentKey)| ==>
      && OptionHz(PopulateRefresRateDropdown(rates, currentKey)[i]).Some?
      && ParseResolution(currentKey).Some?
      && DisplayMode(ParseResolution(currentKey).value.width, ParseResolution(currentKey).value.height,
           OptionHz(PopulateRefresRateDropdown(rates, currentKey)[i]).value) in FittingModes(rule, modes)
  {
    var options := PopulateRefresRateDropdown(rates, currentKey);
    forall i | 0 <= i < |options|
      ensures OptionHz(options[i]).Some?
      ensures ParseResolution(currentKey).Some?
      ensures DisplayMode(ParseResolution(currentKey).value.width, ParseResolution(currentKey).value.height,
                OptionHz(options[i]).value) in FittingModes(rule, modes)
    {
      var t := rates[currentKey][i];
      RatesForMembership(FittingModes(rule, modes), currentKey, t);
      var m :| m in FittingModes(rule, modes) && KeyOf(m) == currentKey && HzText(m) == t;
      OptionHzOfRateOption(m.refreshRate);
      ParseResolutionKey(m.width, m.height);
      assert options[i] == RateOptionText(NatToString(m.refreshRate));
    }
  }

  /** `SelectCurrentResolutionDropdownItem`: the first option equal to the
      current resolution's key, or the last option ("highest") when none is. */
  function SelectCurrentResolutionDropdownItem(options: seq<string>, currentKey: string): (index: int)
    ensures currentKey in options ==>
      0 <= index < |options| && options[index] == currentKey && forall j :: 0 <= j < index ==> options[j] != currentKey
    ensures currentKey !in options ==> index == |options| - 1
  {
    match IndexOf(options, currentKey)
    case Some(i) => i
    case None => |options| - 1
  }

  const IntMaxValue: int := 0x7FFF_FFFF

  /** `Mathf.Abs(hz - optionHz)` on unbounded integers. */
  function Distance(a: int, b: int): nat {
    if a >= b then a - b else b - a
  }

  /** Distance between the current refresh rate and option `j`'s rate. */
  function OptionDistance(hz: int, options: seq<string>, j: int): nat
    requires 0 <= j < |options| && OptionHz(options[j]).Some?
  {
    Distance(hz, OptionHz(options[j]).value)
  }

  /** `SelectCurrentRefreshRateDropdownItem`: the first option whose rate is
      closest to the current one, scanning with a running minimum that starts
      at `int.MaxValue` and stops early on an exact match. When no option is
      closer than `int.MaxValue` (in particular when there are none) the last
      index, `Count - 1`, stays selected. */
  method SelectCurrentRefreshRateDropdownItem(options: seq<string>, hz: int) returns (index: int)
    requires forall j :: 0 <= j < |options| ==> OptionHz(options[j]).Some?
    ensures |options| == 0 ==> index == -1
    ensures (exists j :: 0 <= j < |options| && OptionDistance(hz, options, j) < IntMaxValue) ==>
      && 0 <= index < |options|
      && (forall j :: 0 <= j < |options| ==> OptionDistance(hz, options, index) <= OptionDistance(hz, options, j))
      && (forall j :: 0 <= j < index ==> OptionDistance(hz, options, j) > OptionDistance(hz, options, index))
    ensures (forall j :: 0 <= j < |options| ==> OptionDistance(hz, options, j) >= IntMaxValue) ==>
      index == |options| - 1
  {
    var closestDiff := IntMaxValue;
    index := |options| - 1;
    var i := 0;
    while i < |options|
      invariant 0 <= i <= |options|
      invariant closestDiff <= IntMaxValue
      invariant closestDiff < IntMaxValue ==>
        && 0 <= index < i
        && closestDiff == OptionDistance(hz, options, index)
        && (forall j :: 0 <= j < i ==> closestDiff <= OptionDistance(hz, options, j))
        && (forall j :: 0 <= j < index ==> OptionDistance(hz, options, j) > closestDiff)
      invariant closestDiff == IntMaxValue ==>
        && index == |options| - 1
        && (forall j :: 0 <= j < i ==> OptionDistance(hz, options, j) >= IntMaxValue)
    {
      var optionHz := OptionHz(options[i]).value;
      var diff := Distance(hz, optionHz);
      if diff < closestDiff {
        closestDiff := diff;
        index := i;
        if closestDiff == 0 {
          break;
        }
      }
      i := i + 1;
    }
  }

  /** `GetSelectedFullScreenMode`: the dropdown index cast to the enum, with
      MaximizedWindow (index 2, whose dropdown entry now reads "Windowed")
      turned into Windowed. */
  function GetSelectedFullScreenMode(value: nat): (mode: FullScreenMode)
    requires value < 4
    ensures mode != MaximizedWindow
    ensures value != Ordinal(MaximizedWindow) ==> Ordinal(mode) == value
    ensures value == Ordinal(MaximizedWindow) ==> mode == Windowed
  {
    var mode := ModeOfOrdinal(value);
    if mode == MaximizedWindow then Windowed else mode
  }

  /** `SelectCurrentFullScreenModeDropdownItem`: the dropdown index shown for
      the current mode, a current MaximizedWindow shown as FullScreenWindow. */
  function SelectCurrentFullScreenModeDropdownItem(current: FullScreenMode): (value: nat)
    ensures value < 4 && value != Ordinal(MaximizedWindow)
    ensures current != MaximizedWindow ==> value == Ordinal(current)
    ensures current == MaximizedWindow ==> value == Ordinal(FullScreenWindow)
  {
    Ordinal(if current == MaximizedWindow then FullScreenWindow else current)
  }

  /** Showing the current mode and reading the selection back returns the
      same mode, except that MaximizedWindow comes back as FullScreenWindow. */
  lemma FullScreenModeRoundTrip(current: FullScreenMode)
    ensures GetSelectedFullScreenMode(SelectCurrentFullScreenModeDropdownItem(current)) ==
      if current == MaximizedWindow then FullScreenWindow else current
  {
  }

  /** `SetRefreshRateInteractable`: a disabled control shows only "N/A"; an
      enabled one may be opened only when the current resolution has more
      than one rate. The dictionary is read only when enabling. */
  function SetRefreshRateInteractable(interactable: bool, rates: map<string, seq<string>>, currentKey: string, options: seq<string>): (control: RefreshRateControl)
    requires interactable ==> currentKey in rates
    ensures !interactable ==> control == RefreshRateControl([NotAvailable], false)
    ensures interactable ==> control.options == options && (control.interactable <==> |rates[currentKey]| > 1)
  {
    RefreshRateControl(if interactable then options else [NotAvailable], interactable && |rates[currentKey]| > 1)
  }

  /** The refresh-rate part of `UpdateDialogInteractability`: in the editor
      the control is disabled; otherwise it is enabled only in exclusive
      fullscreen, and can be opened only with a choice of rates. */
  function UpdateRefreshRateInteractability(isEditor: bool, screenMode: FullScreenMode, rates: map<string, seq<string>>, currentKey: string, options: seq<string>): (control: RefreshRateControl)
    requires !isEditor && screenMode == ExclusiveFullScreen ==> currentKey in rates
    ensures control.interactable <==> !isEditor && screenMode == ExclusiveFullScreen && |rates[currentKey]| > 1
    ensures !isEditor && screenMode == ExclusiveFullScreen ==> control.options == options
    ensures isEditor || screenMode != ExclusiveFullScreen ==> control.options == [NotAvailable]
  {
    if isEditor then SetRefreshRateInteractable(false, rates, currentKey, options)
    else SetRefreshRateInteractable(screenMode == ExclusiveFullScreen, rates, currentKey, options)
  }

  /** When the control can be opened on the options built for the current
      resolution, it offers at least two rates, each readable as a number. */
  lemma InteractableControlOffersChoice(isEditor: bool, screenMode: FullScreenMode, modes: seq<DisplayMode>, rule: FitRule, rates: map<string, seq<string>>, currentKey: string)
    requires forall k :: k in rates ==> rates[k] == RatesFor(FittingModes(rule, modes), k)
    requires !isEditor && screenMode == ExclusiveFullScreen ==> currentKey in rates
    ensures var control := UpdateRefreshRateInteractability(isEditor, screenMode, rates, currentKey, PopulateRefresRateDropdown(rates, currentKey));
      control.interactable ==>
        |control.options| >= 2 && forall i :: 0 <= i < |control.options| ==> OptionHz(control.options[i]).Some?
  {
    RefreshRateOptionsReadBack(modes, rule, rates, currentKey);
  }

  /** `GetSelectedRefreshRate`: the selected option's label with `" Hz"`
      removed. A label made of a decimal rate and the suffix gives that rate's
      text; "N/A" is returned unchanged. */
  function GetSelectedRefreshRate(text: string): (hz: string)
    ensures |hz| <= |text|
    ensures text == NotAvailable ==> hz == NotAvailable
    ensures |HzSuffix| <= |text| && text[|text| - |HzSuffix|..] == HzSuffix && IsDecimal(text[..|text| - |HzSuffix|]) ==>
      hz == text[..|text| - |HzSuffix|]
  {
    StripNotAvailable();
    assert |HzSuffix| <= |text| && text[|text| - |HzSuffix|..] == HzSuffix && IsDecimal(text[..|text| - |HzSuffix|]) ==>
      RemoveAll(text, HzSuffix) == text[..|text| - |HzSuffix|] by {
      if |HzSuffix| <= |text| && text[|text| - |HzSuffix|..] == HzSuffix && IsDecimal(text[..|text| - |HzSuffix|]) {
        var rate := text[..|text| - |HzSuffix|];
        assert text == RateOptionText(rate);
        StripRateOption(rate);
      }
    }
    RemoveAll(text, HzSuffix)
  }

  /** `ApplySelectedResolution`: the selected resolution's key is split back
      into width and height; the selected rate is passed on only when it is
      still listed for that resolution and is not "N/A", otherwise 0. `None`
      where the handler would throw while parsing. */
  function ApplySelectedResolution(rates: map<string, seq<string>>, selectedRes: string, selectedRateText: string, fsValue: nat): (request: Option<ResolutionRequest>)
    requires selectedRes in rates
    requires fsValue < 4
    ensures request.Some? ==> ParseResolution(selectedRes) == Some(Size(request.value.width, request.value.height))
    ensures request.Some? ==> request.value.mode == GetSelectedFullScreenMode(fsValue)
    ensures request.Some? && request.value.refreshRate != 0 ==>
      && GetSelectedRefreshRate(selectedRateText) != NotAvailable
      && GetSelectedRefreshRate(selectedRateText) in rates[selectedRes]
      && ParseNat(GetSelectedRefreshRate(selectedRateText)) == Some(request.value.refreshRate)
    ensures ParseResolution(selectedRes).Some? && (forall i :: 0 <= i < |rates[selectedRes]| ==> IsDecimal(rates[selectedRes][i])) ==>
      request.Some?
  {
    var selectedHz := GetSelectedRefreshRate(selectedRateText);
    var hzText := if selectedHz == NotAvailable || selectedHz !in rates[selectedRes] then "0" else selectedHz;
    assert ParseNat("0") == Some(0) by {
      assert DecimalValue("0") == DecimalValue("0"[..0]) * 10 + DigitValue('0');
    }
    match (ParseResolution(selectedRes), ParseNat(hzText))
    case (Some(size), Some(hz)) => Some(ResolutionRequest(size.width, size.height, GetSelectedFullScreenMode(fsValue), hz))
    case _ => None
  }

  /** Applying a rate picked from the options of a resolution built by the
      grouping loop: the rate is passed on exactly when that (width, height,
      hz) mode was kept for the current screen mode, and 0 otherwise. */
  lemma ApplyKeepsListedRateOrFallsBack(modes: seq<DisplayMode>, rule: FitRule, rates: map<string, seq<string>>, width: nat, height: nat, hz: nat, fsValue: nat)
    requires forall k :: k in rates ==> rates[k] == RatesFor(FittingModes(rule, modes), k)
    requires ResolutionKey(width, height) in rates
    requires fsValue < 4
    ensures ApplySelectedResolution(rates, ResolutionKey(width, height), RateOptionText(NatToString(hz)), fsValue) ==
      Some(ResolutionRequest(width, height, GetSelectedFullScreenMode(fsValue),
        if DisplayMode(width, height, hz) in FittingModes(rule, modes) then hz else 0))
  {
    var key := ResolutionKey(width, height);
    ParseResolutionKey(width, height);
    StripRateOption(NatToString(hz));
    ParseNatToString(hz);
    StripNotAvailable();
    RatesForHasMode(FittingModes(rule, modes), width, height, hz);
    RatesForDecimal(FittingModes(rule, modes), key);
  }

  /** Applying with the "N/A" placeholder selected always passes 0 Hz. */
  lemma ApplyNotAvailable(rates: map<string, seq<string>>, width: nat, height: nat, fsValue: nat)
    requires ResolutionKey(width, height) in rates
    requires fsValue < 4
    ensures ApplySelectedResolution(rates, ResolutionKey(width, height), NotAvailable, fsValue) ==
      Some(ResolutionRequest(width, height, GetSelectedFullScreenMode(fsValue), 0))
  {
    ParseResolutionKey(width, height);
    StripNotAvailable();
  }

  predicate BelowDesktop(m: DisplayMode, desktop: Size) {
    m.width < desktop.width && m.height < desktop.height
  }

  /** The windowed shrink target: the last listed mode strictly smaller than
      the desktop in both dimensions, or the desktop itself when there is none. */
  ghost predicate IsShrinkTarget(modes: seq<DisplayMode>, desktop: Size, target: Size) {
    if exists i :: 0 <= i < |modes| && BelowDesktop(modes[i], desktop) then
      exists i :: 0 <= i < |modes| && BelowDesktop(modes[i], desktop)
        && target == Size(modes[i].width, modes[i].height)
        && forall j :: i < j < |modes| ==> !BelowDesktop(modes[j], desktop)
    else target == desktop
  }

  /** The `foreach` over `Screen.resolutions` in `OnFullScreenModeChanged`. */
  method ShrinkTarget(modes: seq<DisplayMode>, desktop: Size) returns (target: Size)
    ensures IsShrinkTarget(modes, desktop, target)
    ensures target == desktop || (target.width < desktop.width && target.height < desktop.height)
  {
    target := desktop;
    ghost var last := -1;
    for i := 0 to |modes|
      invariant -1 <= last < i
      invariant last == -1 ==> target == desktop && forall j :: 0 <= j < i ==> !BelowDesktop(modes[j], desktop)
      invariant last >= 0 ==>
        && BelowDesktop(modes[last], desktop)
        && target == Size(modes[last].width, modes[last].height)
        && forall j :: last < j < i ==> !BelowDesktop(modes[j], desktop)
    {
      if BelowDesktop(modes[i], desktop) {
        target := Size(modes[i].width, modes[i].height);
        last := i;
      }
    }
  }

  /** What one call of a change handler does to the engine: the fullscreen
      mode it assigns to `Screen.fullScreenMode`, if any, and the resolution it
      requests through `Screen.SetResolution`, if any. */
  datatype ScreenEffect = ScreenEffect(assignedMode: Option<FullScreenMode>, request: Option<ResolutionRequest>)

  /** `OnFullScreenModeChanged`: nothing happens while the dialog is being
      updated. Otherwise the selected mode is assigned first; then switching
      to windowed with a selected resolution that does not fit inside the
      desktop requests the shrink target at 0 Hz, and every other case applies
      the selection as it stands. A request of `None` after the assignment is
      a parse that throws once the mode has already changed. */
  method OnFullScreenModeChanged(updatingDialog: bool, modes: seq<DisplayMode>, rates: map<string, seq<string>>, selectedRes: string, selectedRateText: string, fsValue: nat, desktop: Size)
    returns (effect: ScreenEffect)
    requires fsValue < 4
    requires selectedRes in rates
    ensures updatingDialog ==> effect == ScreenEffect(None, None)
    ensures !updatingDialog ==> effect.assignedMode == Some(GetSelectedFullScreenMode(fsValue))
    ensures !updatingDialog && GetSelectedFullScreenMode(fsValue) != Windowed ==>
      effect.request == ApplySelectedResolution(rates, selectedRes, selectedRateText, fsValue)
    ensures !updatingDialog && GetSelectedFullScreenMode(fsValue) == Windowed ==>
      match ParseResolution(selectedRes)
      case None => effect.request.None?
      case Some(size) =>
        if size.width >= desktop.width || size.height >= desktop.height then
          && effect.request.Some?
          && effect.request.value.mode == Windowed
          && effect.request.value.refreshRate == 0
          && IsShrinkTarget(modes, desktop, Size(effect.request.value.width, effect.request.value.height))
        else effect.request == ApplySelectedResolution(rates, selectedRes, selectedRateText, fsValue)
  {
    if updatingDialog {
      return ScreenEffect(None, None);
    }
    var mode := GetSelectedFullScreenMode(fsValue);
    var request: Option<ResolutionRequest>;
    if mode == Windowed {
      var parsed := ParseResolution(selectedRes);
      if parsed.None? {
        return ScreenEffect(Some(mode), None);
      }
      var size := parsed.value;
      if size.width >= desktop.width || size.height >= desktop.height {
        var target := ShrinkTarget(modes, desktop);
        request := Some(ResolutionRequest(target.width, target.height, mode, 0));
      } else {
        request := ApplySelectedResolution(rates, selectedRes, selectedRateText, fsValue);
      }
    } else {
      request := ApplySelectedResolution(rates, selectedRes, selectedRateText, fsValue);
    }
    effect := ScreenEffect(Some(mode), request);
  }
}

=== FILE: strings.dfy ===
/** The text operations the handlers perform on dropdown labels: decimal
    formatting of non-negative ints (`string.Format("{0}", n)`), `int.Parse`,
    `String.Split(char)` and `String.Replace(pattern, "")`. */
module Strings {
  import opened Common

  predicate IsDigit(c: char) {
    '0' <= c <= '9'
  }

  /** A non-empty run of decimal digits: the only texts the model's parser accepts. */
  predicate IsDecimal(s: string) {
    |s| > 0 && forall i :: 0 <= i < |s| ==> IsDigit(s[i])
  }

  function DigitValue(c: char): nat
    requires IsDigit(c)
  {
    c as int - '0' as int
  }

  function DigitChar(d: nat): (c: char)
    requires d < 10
    ensures IsDigit(c) && DigitValue(c) == d
  {
    (d + '0' as int) as char
  }

  /** Decimal rendering of `n`, without sign or leading zeros. */
  function NatToString(n: nat): (s: string)
    ensures IsDecimal(s)
    ensures s[0] != '0' || n == 0
    decreases n
  {
    if n < 10 then [DigitChar(n)] else NatToString(n / 10) + [DigitChar(n % 10)]
  }

  /** Value of a digit string, most significant digit first. */
  function DecimalValue(s: string): nat
    requires forall i :: 0 <= i < |s| ==> IsDigit(s[i])
    decreases |s|
  {
    if |s| == 0 then 0 else DecimalValue(s[..|s| - 1]) * 10 + DigitValue(s[|s| - 1])
  }

  /** `int.Parse` on non-negative numbers; `None` where the parser would throw. */
  function ParseNat(s: string): (r: Option<nat>)
    ensures r.Some? <==> IsDecimal(s)
  {
    if IsDecimal(s) then Some(DecimalValue(s)) else None
  }

  /** Parsing the decimal rendering of a number gives the number back. */
  lemma {:induction false} ParseNatToString(n: nat)
    ensures ParseNat(NatToString(n)) == Some(n)
    decreases n
  {
    if n < 10 {
      var s := NatToString(n);
      assert s == [DigitChar(n)];
      assert s[..0] == [];
      assert DecimalValue(s) == DecimalValue([]) * 10 + DigitValue(DigitChar(n));
    } else {
      ParseNatToString(n / 10);
      var s := NatToString(n);
      assert s[..|s| - 1] == NatToString(n / 10);
    }
  }

  /** Distinct numbers have distinct renderings. */
  lemma NatToStringInjective(a: nat, b: nat)
    ensures NatToString(a) == NatToString(b) <==> a == b
  {
    ParseNatToString(a);
    ParseNatToString(b);
  }

  /** The inverse of `Split`: the pieces glued back with the separator. */
  function Join(parts: seq<string>, sep: char): string
    requires |parts| >= 1
    decreases |parts|
  {
    if |parts| == 1 then parts[0] else parts[0] + [sep] + Join(parts[1..], sep)
  }

  /** `s.Split(new char[] { sep })`: the maximal separator-free pieces of `s`,
      including empty ones, in order. */
  function Split(s: string, sep: char): (parts: seq<string>)
    ensures |parts| >= 1
    ensures forall i :: 0 <= i < |parts| ==> sep !in parts[i]
    ensures Join(parts, sep) == s
    decreases |s|
  {
    if |s| == 0 then [""]
    else
      var rest := Split(s[1..], sep);
      if s[0] == sep then
        assert Join([""] + rest, sep) == [sep] + Join(rest, sep) by {
          assert ([""] + rest)[1..] == rest;
        }
        [""] + rest
      else
        var parts := [[s[0]] + rest[0]] + rest[1..];
        assert Join(parts, sep) == [s[0]] + Join(rest, sep) by {
          if |rest| > 1 {
            assert parts[1..] == rest[1..];
          }
        }
        parts
  }

  /** Splitting at a separator that follows a separator-free prefix yields
      that prefix first. */
  lemma {:induction false} SplitAfter(a: string, sep: char, b: string)
    requires sep !in a
    ensures Split(a + [sep] + b, sep) == [a] + Split(b, sep)
    decreases |a|
  {
    var s := a + [sep] + b;
    if |a| == 0 {
      assert s[1..] == b;
    } else {
      assert s[1..] == a[1..] + [sep] + b;
      SplitAfter(a[1..], sep, b);
      assert [a[0]] + a[1..] == a;
    }
  }

  /** A text without the separator splits into itself. */
  lemma {:induction false} SplitNoSeparator(s: string, sep: char)
    requires sep !in s
    ensures Split(s, sep) == [s]
    decreases |s|
  {
    if |s| > 0 {
      SplitNoSeparator(s[1..], sep);
      assert [s[0]] + s[1..] == s;
    }
  }

  /** `s.Replace(pattern, "")`: every non-overlapping occurrence of `pattern`,
      found scanning left to right, is deleted. */
  function RemoveAll(s: string, pattern: string): (r: string)
    requires |pattern| > 0
    ensures |r| <= |s|
    ensures (forall i :: 0 <= i < |s| ==> s[i] != pattern[0]) ==> r == s
    decreases |s|
  {
    if |s| == 0 then s
    else if |pattern| <= |s| && s[..|pattern|] == pattern then RemoveAll(s[|pattern|..], pattern)
    else
      assert s[0] != pattern[0] && |pattern| <= |s| ==> s[..|pattern|] != pattern by {
        if |pattern| <= |s| && s[0] != pattern[0] {
          assert s[..|pattern|][0] == s[0];
        }
      }
      [s[0]] + RemoveAll(s[1..], pattern)
  }

  /** Removing a pattern from a text that carries it once, as a suffix, and
      nowhere else can start it, gives back the text before the suffix. */
  lemma {:induction false} RemoveAllTrailing(d: string, pattern: string)
    requires |pattern| > 0
    requires forall i :: 0 <= i < |d| ==> d[i] != pattern[0]
    ensures RemoveAll(d + pattern, pattern) == d
    decreases |d|
  {
    var s := d + pattern;
    if |d| == 0 {
      assert s == pattern;
      assert s[..|pattern|] == pattern;
      assert s[|pattern|..] == [];
    } else {
      assert s[..|pattern|] != pattern by {
        if |pattern| <= |s| {
          assert s[..|pattern|][0] == d[0];
        }
      }
      assert s[1..] == d[1..] + pattern;
      RemoveAllTrailing(d[1..], pattern);
      assert [d[0]] + d[1..] == d;
    }
  }
}
